=== FILE: README.md ===
# mutagen-tagger: the genre-to-comment decision, in Dafny

`mutagen-tagger.py` walks MP3 files, looks up a genre for each track from an
online catalogue when the file has no genre tag, and appends a
`Genre: <genre>` note to the file's English comment. This project models the
pure part of that script and proves properties of it:

- `extract_metadata`: the artist/title presence check (`Tagger.ExtractMetadata`);
- `process_file`: the branch on existing vs. resolved genre, the `'Unknown'`
  sentinel, the substring duplicate check, and the merged text
  `f"{comments} {genre_comment}".strip()` (`Tagger.ProcessFile`, `CommentMerge`);
- `updateComments`: the first-`'eng'`-frame selection, its own
  `" Genre: "` duplicate check and its formatting (`CommentFrames`);
- `main`: the `.mp3` filter over a directory listing, the single-file case
  and the invalid-path case (`Cli`).

Python's `str.strip()`, `isspace()`, `endswith` and `needle in hay` are
modelled in `PyStrings`; `None` and truthiness in `PyValues`.

Files: `pystrings.dfy` (PyValues, PyStrings), `merge.dfy` (CommentMerge),
`comments.dfy` (CommentFrames), `tagger.dfy` (Tagger), `cli.dfy` (Cli).

Inputs that the script obtains by I/O are parameters of the model:

- the four tag values the reader extracts (`Option<RawTags>`; `None` when the
  file cannot be loaded at all);
- the genre lookup `get_genre(sp, artist, title)` is a function
  `resolve: (string, string) -> string`;
- the ID3 tag `updateComments` opens (`TagLoad`: its comment frames, no
  header, or unreadable);
- the path kind and directory listing (`PathKind`), and per-file contents
  (`view: string -> FileView`).

The only file change the model produces is `Commented(Saved(text))`:
`updateComments` adds an English comment frame with an empty description
holding `text`, and saves. No outcome writes the genre tag, because
`process_file` never calls `update_genre`.

## Behaviour of the code that the model keeps

- **The written comment text is prefixed twice.** `process_file` passes the
  already merged text (`"Genre: Jazz"`) to `updateComments`, which formats it
  again as `" Genre: " + arg`. So a file with no comment and resolved genre
  `Jazz` ends up with `" Genre: Genre: Jazz"`, not `"Genre: Jazz"`
  (`Tagger.JazzExample`, `Tagger.FreshFileText`).
- **A `TypeError` stops the whole run.** If the genre tag is present but the
  comment is `None`, `genre_comment not in comments` raises. Neither
  `process_file` nor `main` catches it, so the directory loop ends at that
  file, and the remaining files are not processed (`Tagger.ProcessFile`,
  `Cli.RunDirectory`).
- **Merging is idempotent only for genres without trailing whitespace.**
  For a genre that ends in one space, `strip()` removes that space from the
  annotation. The second merge then does not find the annotation and
  appends it again. From the third merge on, the annotation followed by the
  joining space occurs at the front of the text, and nothing changes
  (`CommentMerge.TrailingSpaceNotIdempotent`). Other trailing whitespace,
  as in `"Rock\t"` or `"Rock  "`, does not settle this way: the copies are joined
  by a single space, so the annotation is still not found. For a genre that
  ends in a tab, every merge into a tab-free comment appends another copy
  (`CommentMerge.TabGenreAppendsAgain`); the two-space case is not proved
  here. For every non-empty
  genre without trailing whitespace, merging twice is merging once
  (`CommentMerge.MergeIdempotent`). An empty genre never reaches the merge,
  because it is falsy.
- A present but empty genre tag is falsy. It is never replaced by a lookup
  and leads to "genre could not be determined" (`Tagger.ChosenGenre`).

## Model

| member | source | states |
|---|---|---|
| PyStrings.IsSpace | mutagen-tagger.py:141 | the whitespace `strip()` removes is exactly CPython's `str.isspace()` set: U+0009–000D, 001C–0020, 0085, 00A0, 1680, 2000–200A, 2028, 2029, 202F, 205F, 3000 |
| PyStrings.Contains | mutagen-tagger.py:139 | `needle in hay` (also at lines 95 and 147): the needle is a prefix of the haystack or of one of its tails, so the empty needle is in every string |
| PyStrings.TrimStart | mutagen-tagger.py:141 | front half of `strip()`: the result is a suffix of the input, everything dropped is whitespace, and the result does not start with whitespace |
| PyStrings.TrimEnd | mutagen-tagger.py:141 | back half of `strip()`: the result is a prefix of the input, everything dropped is whitespace, and the result does not end with whitespace |
| PyStrings.Strip | mutagen-tagger.py:141 | `strip()` returns `""` exactly for all-whitespace input; otherwise both ends of the result are non-whitespace |
| PyStrings.StripIsSlice | mutagen-tagger.py:141 | `strip()` removes whitespace from the two ends and nothing else: the result is a contiguous slice of the input with only whitespace before and after it |
| PyStrings.ContainsIff | mutagen-tagger.py:139 | the substring test `needle in hay` holds exactly when the needle occurs at some index of the haystack |
| PyStrings.ContainsTransitive | mutagen-tagger.py:139 | an occurrence of c inside an occurrence of b inside a is an occurrence of c in a |
| PyStrings.TrimStartAppend | mutagen-tagger.py:141 | stripping the front of `a + b` strips only `a`'s whitespace prefix, unless `a` is all whitespace |
| CommentMerge.Annotation | mutagen-tagger.py:138 | the annotation is `"Genre: "` followed by the genre, with no leading space (also line 146) |
| CommentMerge.MergedText | mutagen-tagger.py:141 | the merged text is the comment, one space and the annotation, stripped at both ends (also line 148) |
| CommentMerge.MergedTextAnyGenre | mutagen-tagger.py:141 | for every genre, the merged text is the comment without its leading whitespace followed by a space (nothing when the comment is all whitespace), then the annotation without its trailing whitespace |
| CommentMerge.TabGenreAppendsAgain | mutagen-tagger.py:138-141 | for a genre `h + "\t"` (h non-empty, tab-free, without trailing whitespace) and a tab-free comment with content, the merge appends `"Genre: h"` after the comment without its leading whitespace, and the result is again tab-free with content, so the next merge appends again |
| CommentMerge.MergeGenreIntoComment | mutagen-tagger.py:135-141 | a comment that already contains `"Genre: <g>"` is returned unchanged; otherwise, for every genre, the result is the comment without its leading whitespace and a space (nothing when the comment is all whitespace), then the annotation without its trailing whitespace; for a non-empty genre without trailing whitespace, the result is `"Genre: <g>"` when the comment is all whitespace, and else the comment without its leading whitespace, a space, and `"Genre: <g>"`; the result always contains `"Genre: <g>"` for such a genre |
| CommentMerge.MergedTextShape | mutagen-tagger.py:141 | for a non-empty genre g without trailing whitespace, `(c + " Genre: " + g).strip()` is `"Genre: <g>"` when c is all whitespace, else c without its leading whitespace, a space, and the annotation; it ends with the annotation |
| CommentMerge.MergeIntoEmpty | mutagen-tagger.py:135-141 | with no comment, and a non-empty genre without trailing whitespace, the merged text is exactly `"Genre: <g>"` |
| CommentMerge.MergeIdempotent | mutagen-tagger.py:139-141 | merging the same genre twice gives the same text as merging once, for a non-empty genre without trailing whitespace |
| CommentMerge.TrailingSpaceNotIdempotent | mutagen-tagger.py:138-141 | for a genre `h + " "` with exactly one trailing space (h non-empty, without trailing whitespace) the first merge gives `"Genre: h"`, the second appends a second annotation, and the third changes nothing |
| CommentFrames.FirstEnglish | mutagen-tagger.py:87-91 | returns the index of the first frame with language `'eng'`, and `None` exactly when no frame has it |
| CommentFrames.CurrentComments | mutagen-tagger.py:86-91 | the current text is the first text value of the first `'eng'` frame, `""` when there is no such frame, and an error exactly when that frame's text list is empty |
| CommentFrames.GenreComment | mutagen-tagger.py:94 | the text `updateComments` looks for and appends is `" Genre: "` followed by its argument, with a leading space |
| CommentFrames.AppendGenreComment | mutagen-tagger.py:94-96 | no new text exactly when `" Genre: <arg>"` already occurs; otherwise the new text is the current text followed by `" Genre: <arg>"`, including when the current text is empty |
| CommentFrames.AppendThenNoOp | mutagen-tagger.py:94-96 | appending to the text just produced, with the same argument, is a no-op |
| CommentFrames.UpdateComments | mutagen-tagger.py:77-107 | an unreadable tag writes nothing; a missing header or no `'eng'` frame writes exactly `" Genre: <arg>"`; any saved text ends with and contains `" Genre: <arg>"` |
| CommentFrames.UpdateCommentsSaves | mutagen-tagger.py:86-101 | a save happens exactly when the current comment is readable and lacks `" Genre: <arg>"`, and saves that comment followed by `" Genre: <arg>"` |
| CommentFrames.UpdateCommentsIdempotent | mutagen-tagger.py:86-104 | running the update again on a tag whose only English frame holds the saved text saves nothing |
| Tagger.ExtractMetadata | mutagen-tagger.py:51-75 | the values come back only when the file loads and artist and title are both truthy; otherwise all four are `None` |
| Tagger.ChosenGenre | mutagen-tagger.py:130-133 | a chosen genre is always truthy; a present genre tag is used as is when truthy, `'Unknown'` included (the `elif genre` at line 145), and an empty tag chooses nothing; without a tag the resolver's answer is chosen unless it is empty or `'Unknown'` |
| Tagger.BaseComment | mutagen-tagger.py:135 | without a genre tag a missing comment becomes `""`; with a genre tag the comment is used as read, so `None` stays `None`; a present comment is never changed |
| Tagger.ProcessFile | mutagen-tagger.py:125-155 | missing or empty artist or title skips the file; otherwise the outcome is "genre could not be determined" exactly when there is no usable genre (see ChosenGenre); a write needs a usable genre; the `TypeError` happens exactly when a truthy genre tag meets a `None` comment |
| Tagger.ResolverUnusedWithGenreTag | mutagen-tagger.py:130 | with a genre tag present, the outcome does not depend on the resolver |
| Tagger.ResolverAskedAboutArtistAndTitle | mutagen-tagger.py:130 | the outcome depends on the resolver only through its answer for this file's artist and title |
| Tagger.UnknownWritesNothing | mutagen-tagger.py:130-153 | with no genre tag, the answer `'Unknown'` ends in "genre could not be determined" and no write |
| Tagger.ProcessFileDecision | mutagen-tagger.py:130-151 | with a usable genre g and a comment c (`None` counts as `""` only in the resolved branch): annotation already in c means no update, else `updateComments` gets the merged text |
| Tagger.AnnotatedCommentWritesNothing | mutagen-tagger.py:139-151 | if `"Genre: <g>"` is already a substring of the comment, nothing is written |
| Tagger.FreshFileText | mutagen-tagger.py:135-142 | no genre tag, no comment, no `'eng'` frame and a resolved genre g, non-empty and without trailing whitespace: the text written is `" Genre: Genre: <g>"` |
| Tagger.JazzExample | mutagen-tagger.py:125-155 | the end-to-end case with resolver answer `Jazz` writes `" Genre: Genre: Jazz"` |
| Tagger.WrittenTextHasAnnotation | mutagen-tagger.py:139-151 | for a non-empty usable genre g without trailing whitespace, any text `process_file` writes contains `"Genre: <g>"` |
| Tagger.SecondRunWritesNothing | mutagen-tagger.py:139-151 | for a non-empty usable genre without trailing whitespace, processing a file again, once its comment reads as the written text, writes nothing |
| Cli.IsMp3Name | mutagen-tagger.py:174 | a name is an MP3 name when it ends with `.mp3`, case-sensitively (also line 181) |
| Cli.Mp3Names | mutagen-tagger.py:173-174 | every kept name ends with `.mp3`, and no more names are kept than listed |
| Cli.Mp3NamesMembers | mutagen-tagger.py:173-174 | a name is kept exactly when it is listed and ends with `.mp3` (case-sensitive) |
| Cli.Mp3NamesAppend | mutagen-tagger.py:173-174 | the filter distributes over concatenation, so listing order is kept |
| Cli.Mp3NamesCount | mutagen-tagger.py:173-174 | each `.mp3` name is kept as many times as it is listed, and no other name is kept |
| Cli.RunDirectory | mutagen-tagger.py:172-179 | the processed names are, in order, a prefix of the `.mp3` names; each outcome is that file's `process_file` result; the loop stops exactly after the first `TypeError`, and otherwise processes every `.mp3` name |
| Cli.RunOnPath | mutagen-tagger.py:171-184 | a directory is always walked: its `.mp3` names in listing order, each with its `process_file` outcome, stopping exactly after the first `TypeError` and otherwise covering every `.mp3` name; a regular file ending in `.mp3` is processed once; every other path is rejected with nothing processed |

## Left out

- `get_genre` (the catalogue search, the `429` retry with `time.sleep`, the
  `'Unknown'` fallbacks): network I/O through a library outside this model.
  Its answer is the parameter `resolve`, a deterministic total function. A
  lookup that is rate-limited forever, and so never returns, is not modelled.
- How the tagging library maps the keys `'artist'`, `'title'`, `'COMM::eng'`
  and `'TCON'` to values under `easy=True`, and the binary ID3 parsing.
  The four values are arbitrary inputs, and `TagLoad` stands for the tag
  `updateComments` opens.
- What `audiofile.add(COMM(...))` replaces and how `save` writes the file.
  A save is the outcome `Saved(text)`, and a failing save (caught and logged by
  `updateComments`) is not modelled.
- Comment frame descriptions. `updateComments` reads the first `'eng'`
  comment frame whatever its description (mutagen-tagger.py:88-91), but
  writes a frame with the empty description (mutagen-tagger.py:98). When the
  first English frame has a non-empty description, that frame is kept, and
  which text the next run reads depends on frame order in the tag. Such a
  file can be saved again on every run. `CommentFrame` has no description,
  and `CommentFrames.UpdateCommentsIdempotent` only covers a tag whose one
  English frame holds the saved text.
- `output_metatdata`: only a logging dump.
- `update_genre`: nothing in the script calls it.
- Logging, argument parsing, credential loading, `os.path.expanduser`,
  `os.path.join`, `os.listdir`, `isdir` and `isfile`. The path kind and the
  listing are the input `PathKind`. Each file's contents are looked up by
  name through `view`, and the directory loop takes the per-file step as a
  function of the listed name.
- Non-string tag values, and `IndexError` from an empty value list in
  `extract_metadata`: the reader's values are `Option<string>`, and the
  reader's own errors are the `None` input.

=== FILE: cli.dfy ===
/** The path handling of `main`: a directory is listed (not recursively) and
    every entry whose name ends in `.mp3` is processed in listing order; a
    single path is processed only when it is a file ending in `.mp3`. */
module Cli {
  import opened PyValues
  import opened PyStrings
  import opened CommentFrames
  import opened Tagger

  const Mp3Suffix := ".mp3"

  /** `filename.endswith('.mp3')`: case-sensitive, so `.MP3` does not match. */
  predicate IsMp3Name(name: string) {
    EndsWith(name, Mp3Suffix)
  }

  /** What the file system says about the expanded path: a directory with its
      listing, a regular file, or neither (missing, or some other kind). */
  datatype PathKind = Directory(listing: seq<string>) | RegularFile | NotFound

  /** What the program sees of one file: the tags the reader extracts and the
      ID3 comment frames `updateComments` opens. */
  datatype FileView = FileView(tags: Option<RawTags>, load: TagLoad)

  /** One call of `process_file` and its outcome. */
  datatype Processed = Processed(name: string, outcome: FileOutcome)

  /** A whole invocation: the path was rejected with no file processed, or the
      files were processed in order; `aborted` records that the last one raised
      the `TypeError` that ends the program. */
  datatype Invocation = Rejected | Ran(results: seq<Processed>, aborted: bool)

  /** The directory filter: the `.mp3` names of a listing, in listing order. */
  function Mp3Names(listing: seq<string>): (r: seq<string>)
    ensures |r| <= |listing|
    ensures forall k :: 0 <= k < |r| ==> IsMp3Name(r[k])
  {
    if listing == [] then []
    else if IsMp3Name(listing[0]) then [listing[0]] + Mp3Names(listing[1..])
    else Mp3Names(listing[1..])
  }

  /** A name is kept exactly when it is listed and ends in `.mp3`. */
  lemma {:induction false} Mp3NamesMembers(listing: seq<string>, x: string)
    ensures x in Mp3Names(listing) <==> x in listing && IsMp3Name(x)
    decreases |listing|
  {
    if listing != [] {
      Mp3NamesMembers(listing[1..], x);
      assert x in listing <==> x == listing[0] || x in listing[1..];
    }
  }

  /** The filter distributes over concatenation, so it keeps listing order. */
  lemma {:induction false} Mp3NamesAppend(a: seq<string>, b: seq<string>)
    ensures Mp3Names(a + b) == Mp3Names(a) + Mp3Names(b)
    decreases |a|
  {
    if a == [] {
      assert a + b == b;
    } else {
      assert (a + b)[1..] == a[1..] + b;
      Mp3NamesAppend(a[1..], b);
    }
  }

  /** Every `.mp3` entry is kept as often as it is listed, and nothing else is
      kept: with a listing of distinct names, each `.mp3` file is processed
      exactly once. */
  lemma {:induction false} Mp3NamesCount(listing: seq<string>, x: string)
    ensures multiset(Mp3Names(listing))[x] == if IsMp3Name(x) then multiset(listing)[x] else 0
    decreases |listing|
  {
    if listing != [] {
      var first, rest := listing[0], listing[1..];
      Mp3NamesCount(rest, x);
      assert multiset(listing)[x] == multiset([first])[x] + multiset(rest)[x] by {
        assert listing == [first] + rest;
      }
      if IsMp3Name(first) {
        assert Mp3Names(listing) == [first] + Mp3Names(rest);
        assert multiset(Mp3Names(listing)) == multiset([first]) + multiset(Mp3Names(rest));
      } else {
        assert Mp3Names(listing) == Mp3Names(rest);
      }
    }
  }

  /** One step of the filter. */
  lemma {:induction false} Mp3NamesSnoc(listing: seq<string>, name: string)
    ensures Mp3Names(listing + [name])
         == Mp3Names(listing) + (if IsMp3Name(name) then [name] else [])
  {
    Mp3NamesAppend(listing, [name]);
    assert [name][1..] == [];
  }

  /** What `process_file` reports for one file name, given what the tag reader
      sees for it. */
  function OutcomeOf(view: string -> FileView, resolve: (string, string) -> string, name: string)
    : FileOutcome
  {
    ProcessFile(view(name).tags, resolve, view(name).load)
  }

  /** The filter over a listing split at `i`. */
  lemma {:induction false} Mp3NamesSplit(listing: seq<string>, i: int)
    requires 0 <= i <= |listing|
    ensures Mp3Names(listing) == Mp3Names(listing[..i]) + Mp3Names(listing[i..])
  {
    assert listing == listing[..i] + listing[i..];
    Mp3NamesAppend(listing[..i], listing[i..]);
  }

  /** The `for filename in os.listdir(...)` loop. `process(name)` is the outcome
      of `process_file` on the file the listed name joins to. The `TypeError`
      `process_file` can raise is not caught, so the first one ends the loop. */
  method RunDirectory(listing: seq<string>, process: string -> FileOutcome)
    returns (results: seq<Processed>, aborted: bool)
    ensures |results| <= |Mp3Names(listing)|
    ensures forall k :: 0 <= k < |results| ==> results[k].name == Mp3Names(listing)[k]
    ensures forall k :: 0 <= k < |results| ==> results[k].outcome == process(results[k].name)
    ensures forall k :: 0 <= k < |results| - 1 ==> results[k].outcome != TypeErrorRaised
    ensures aborted <==> |results| > 0 && results[|results| - 1].outcome == TypeErrorRaised
    ensures !aborted ==> |results| == |Mp3Names(listing)|
  {
    results := [];
    aborted := false;
    var i := 0;
    while i < |listing|
      invariant 0 <= i <= |listing|
      invariant |results| == |Mp3Names(listing[..i])|
      invariant forall k :: 0 <= k < |results| ==> results[k].name == Mp3Names(listing[..i])[k]
      invariant forall k :: 0 <= k < |results| ==> results[k].outcome == process(results[k].name)
      invariant forall k :: 0 <= k < |results| ==> results[k].outcome != TypeErrorRaised
      decreases |listing| - i
    {
      var name := listing[i];
      assert listing[..i + 1] == listing[..i] + [name];
      Mp3NamesSnoc(listing[..i], name);
      i := i + 1;
      if IsMp3Name(name) {
        var outcome := process(name);
        results := results + [Processed(name, outcome)];
        if outcome == TypeErrorRaised {
          aborted := true;
          break;
        }
      }
    }
    Mp3NamesSplit(listing, i);
  }

  /** `main()` after the path is expanded: a directory is walked whatever its
      name, in listing order, until the first `TypeError`; otherwise the path
      must be a regular file ending in `.mp3`, or the invocation is rejected
      without processing anything. */
  method RunOnPath(path: string, kind: PathKind, view: string -> FileView,
                   resolve: (string, string) -> string)
    returns (r: Invocation)
    ensures r.Rejected? <==> kind.NotFound? || (kind.RegularFile? && !IsMp3Name(path))
    ensures kind.RegularFile? && IsMp3Name(path) ==>
      r == Ran([Processed(path, OutcomeOf(view, resolve, path))],
               OutcomeOf(view, resolve, path) == TypeErrorRaised)
    ensures kind.Directory? ==> r.Ran? && |r.results| <= |Mp3Names(kind.listing)|
    ensures kind.Directory? ==> forall k :: 0 <= k < |r.results| ==>
      r.results[k].name == Mp3Names(kind.listing)[k]
    ensures kind.Directory? ==> forall k :: 0 <= k < |r.results| ==> IsMp3Name(r.results[k].name)
    ensures kind.Directory? ==> forall k :: 0 <= k < |r.results| ==>
      r.results[k].outcome == OutcomeOf(view, resolve, r.results[k].name)
    ensures kind.Directory? ==> forall k :: 0 <= k < |r.results| - 1 ==>
      r.results[k].outcome != TypeErrorRaised
    ensures kind.Directory? ==>
      (r.aborted <==> |r.results| > 0 && r.results[|r.results| - 1].outcome == TypeErrorRaised)
    ensures kind.Directory? && !r.aborted ==> |r.results| == |Mp3Names(kind.listing)|
  {
    match kind
    case Directory(listing) =>
      var results, aborted := RunDirectory(listing, name => OutcomeOf(view, resolve, name));
      r := Ran(results, aborted);
    case RegularFile =>
      if IsMp3Name(path) {
        var outcome := OutcomeOf(view, resolve, path);
        r := Ran([Processed(path, outcome)], outcome == TypeErrorRaised);
      } else {
        r := Rejected;
      }
    case NotFound =>
      r := Rejected;
  }
}

=== FILE: comments.dfy ===
/** `updateComments`: read the current English comment from the file's ID3
    comment frames, append `" Genre: <arg>"` unless it is already there, and
    write the result back as the English comment frame. */
module CommentFrames {
  import opened PyValues
  import opened PyStrings

  /** One ID3 comment frame: its language code and its list of text values. */
  datatype CommentFrame = CommentFrame(lang: string, text: seq<string>)

  /** Outcome of opening the ID3 tag: the frames it holds, no tag header at all
      (a fresh empty tag is used), or any other load failure. */
  datatype TagLoad = Loaded(frames: seq<CommentFrame>) | NoHeader | Unreadable

  /** What `updateComments` does to the file: writes the English comment frame
      with `text` and saves, finds the annotation already present and leaves the
      file alone, or hits an exception that it logs and swallows. */
  datatype CommentUpdate = Saved(text: string) | AlreadyPresent | Failed

  const English := "eng"

  /** Index of the first frame whose language is `'eng'`, if any. */
  function FirstEnglish(frames: seq<CommentFrame>): (r: Option<nat>)
    ensures r.Some? ==> r.value < |frames| && frames[r.value].lang == English
    ensures r.Some? ==> forall j :: 0 <= j < r.value ==> frames[j].lang != English
    ensures r.None? <==> forall j :: 0 <= j < |frames| ==> frames[j].lang != English
  {
    if |frames| == 0 then None
    else if frames[0].lang == English then Some(0)
    else
      match FirstEnglish(frames[1..])
      case None => None
      case Some(k) => Some(k + 1)
  }

  /** Frame `i` is the first English frame. */
  ghost predicate IsFirstEnglish(frames: seq<CommentFrame>, i: int) {
    && 0 <= i < |frames|
    && frames[i].lang == English
    && forall j :: 0 <= j < i ==> frames[j].lang != English
  }

  /** `current_comments`: the first text value of the first English frame, or
      `""` when there is none; `None` when that frame's text list is empty (the
      `comm.text[0]` lookup raises and the whole update is abandoned). */
  function CurrentComments(frames: seq<CommentFrame>): (r: Option<string>)
    ensures (forall j :: 0 <= j < |frames| ==> frames[j].lang != English) ==> r == Some("")
    ensures forall i :: IsFirstEnglish(frames, i) && frames[i].text != [] ==>
      r == Some(frames[i].text[0])
    ensures r.None? <==> exists i :: IsFirstEnglish(frames, i) && frames[i].text == []
  {
    match FirstEnglish(frames)
    case None => Some("")
    case Some(i) =>
      FirstEnglishUnique(frames, i);
      if frames[i].text == [] then None else Some(frames[i].text[0])
  }

  /** There is at most one first English frame. */
  lemma FirstEnglishUnique(frames: seq<CommentFrame>, i: int)
    requires IsFirstEnglish(frames, i)
    ensures forall k :: IsFirstEnglish(frames, k) ==> k == i
  {
  }

  /** `f" Genre: {new_genre}"`: note the leading space. */
  function GenreComment(arg: string): string {
    " Genre: " + arg
  }

  /** The text step of `updateComments`: `None` when the genre comment already
      occurs in the current text, otherwise the new text, which is always the
      current text followed by the genre comment (the script's special case for
      an empty current text yields the same string). */
  function AppendGenreComment(current: string, arg: string): (r: Option<string>)
    ensures r.None? <==> Contains(current, GenreComment(arg))
    ensures r.Some? ==> r.value == current + GenreComment(arg)
  {
    var genreComment := GenreComment(arg);
    if !Contains(current, genreComment) then
      Some(if current != "" then current + genreComment else genreComment)
    else
      None
  }

  /** Appending is idempotent: the text just written already holds the genre
      comment, so appending the same argument again changes nothing. */
  lemma AppendThenNoOp(current: string, arg: string)
    requires AppendGenreComment(current, arg).Some?
    ensures AppendGenreComment(AppendGenreComment(current, arg).value, arg).None?
  {
    ContainsSuffix(current, GenreComment(arg));
  }

  /** `updateComments(file_path, arg)` over the tag as loaded. */
  function UpdateComments(load: TagLoad, arg: string): (r: CommentUpdate)
    ensures load.Unreadable? ==> r == Failed
    ensures load.NoHeader? ==> r == Saved(GenreComment(arg))
    ensures r.Saved? ==> EndsWith(r.text, GenreComment(arg))
    ensures r.Saved? ==> Contains(r.text, GenreComment(arg))
    ensures load.Loaded? && FirstEnglish(load.frames).None? ==> r == Saved(GenreComment(arg))
  {
    var frames := match load
      case Loaded(fs) => fs
      case _ => [];
    if load.Unreadable? then Failed
    else
      match CurrentComments(frames)
      case None => Failed
      case Some(current) =>
        match AppendGenreComment(current, arg)
        case None => AlreadyPresent
        case Some(text) =>
          ContainsSuffix(current, GenreComment(arg));
          Saved(text)
  }

  /** The write happens exactly when the English comment can be read and does
      not yet contain the genre comment; what is written is that comment with
      the genre comment appended. */
  lemma UpdateCommentsSaves(frames: seq<CommentFrame>, arg: string)
    ensures UpdateComments(Loaded(frames), arg).Saved?
        <==> CurrentComments(frames).Some?
             && !Contains(CurrentComments(frames).value, GenreComment(arg))
    ensures UpdateComments(Loaded(frames), arg).Saved?
        ==> UpdateComments(Loaded(frames), arg).text
            == CurrentComments(frames).value + GenreComment(arg)
  {
  }

  /** Writing the result back as the only English frame and running the update
      again saves nothing. */
  lemma UpdateCommentsIdempotent(frames: seq<CommentFrame>, arg: string)
    requires UpdateComments(Loaded(frames), arg).Saved?
    ensures UpdateComments(
              Loaded([CommentFrame(English, [UpdateComments(Loaded(frames), arg).text])]), arg)
         == AlreadyPresent
  {
    var text := UpdateComments(Loaded(frames), arg).text;
    var again := [CommentFrame(English, [text])];
    assert FirstEnglish(again) == Some(0);
    assert CurrentComments(again) == Some(text);
  }
}

=== FILE: merge.dfy ===
/** The comment text `process_file` computes before handing it to
    `updateComments`: the annotation `"Genre: <g>"`, the substring duplicate
    check, and `f"{comments} {annotation}".strip()`. */
module CommentMerge {
  import opened PyStrings

  /** `f"Genre: {g}"` */
  function Annotation(g: string): string {
    "Genre: " + g
  }

  /** A genre whose annotation survives `strip()`: non-empty, with no trailing
      whitespace. Every truthy genre that does not end in whitespace qualifies. */
  predicate CleanGenre(g: string) {
    g != [] && !IsSpace(g[|g| - 1])
  }

  /** `f"{comments} {genre_comment}".strip()` */
  function MergedText(c: string, g: string): string {
    Strip(c + " " + Annotation(g))
  }

  /** The merge policy as one function: the old comment when the annotation is
      already a substring of it, the merged text otherwise. */
  function MergeGenreIntoComment(c: string, g: string): (r: string)
    ensures Contains(c, Annotation(g)) ==> r == c
    ensures CleanGenre(g) ==> Contains(r, Annotation(g))
    ensures CleanGenre(g) && !Contains(c, Annotation(g)) ==>
      r == if AllSpace(c) then Annotation(g) else TrimStart(c) + " " + Annotation(g)
    ensures !Contains(c, Annotation(g)) ==>
      r == (if AllSpace(c) then "" else TrimStart(c) + " ") + TrimEnd(Annotation(g))
  {
    if Contains(c, Annotation(g)) then c
    else
      MergedKeepsAnnotation(c, g);
      MergedShapeIfClean(c, g);
      MergedTextAnyGenre(c, g);
      MergedText(c, g)
  }

  /** The annotation can never be trimmed from the front: it starts with 'G'. */
  lemma AnnotationFront(g: string)
    ensures Annotation(g) != [] && !IsSpace(Annotation(g)[0])
  {
  }

  /** The joining space never turns a comment with content into one that is
      all whitespace, nor the other way round. */
  lemma AllSpaceWithSpace(c: string)
    ensures AllSpace(c + " ") <==> AllSpace(c)
  {
    if AllSpace(c) {
      forall i | 0 <= i < |c + " "| ensures IsSpace((c + " ")[i]) {
        if i < |c| { assert (c + " ")[i] == c[i]; }
      }
    }
    if AllSpace(c + " ") {
      forall i | 0 <= i < |c| ensures IsSpace(c[i]) {
        assert (c + " ")[i] == c[i];
      }
    }
  }

  /** The front half of `strip()` on the concatenation. */
  lemma MergedFront(c: string, g: string)
    ensures TrimStart(c + " " + Annotation(g))
         == if AllSpace(c) then Annotation(g) else TrimStart(c) + " " + Annotation(g)
  {
    var ann := Annotation(g);
    AnnotationFront(g);
    TrimStartAppend(c + " ", ann);
    TrimStartAppend(c, " ");
    AllSpaceWithSpace(c);
  }

  /** For a clean genre the merged text ends in a non-space character, so
      `strip()` only trims its front. */
  lemma MergedTrimsFrontOnly(c: string, g: string)
    requires CleanGenre(g)
    ensures MergedText(c, g) == TrimStart(c + " " + Annotation(g))
  {
    var whole := c + " " + Annotation(g);
    assert whole[|whole| - 1] == g[|g| - 1];
    StripCleanEnd(whole);
  }

  /** What `strip()` does to the concatenation, for any genre: the old
      comment loses its leading whitespace, and the annotation loses its
      trailing whitespace. */
  lemma MergedTextAnyGenre(c: string, g: string)
    ensures MergedText(c, g)
         == (if AllSpace(c) then "" else TrimStart(c) + " ") + TrimEnd(Annotation(g))
  {
    var ann := Annotation(g);
    var whole := c + " " + ann;
    var head := if AllSpace(c) then "" else TrimStart(c) + " ";
    assert TrimStart(whole) == head + ann by {
      MergedFront(c, g);
    }
    AnnotationFront(g);
    TrimEndAppend(head, ann);
    assert MergedText(c, g) == TrimEnd(TrimStart(whole));
  }

  /** What `strip()` does to the concatenation, for a clean genre: the old
      comment loses its leading whitespace but keeps its trailing whitespace,
      and a comment that is all whitespace (or empty) disappears entirely. */
  lemma MergedTextShape(c: string, g: string)
    requires CleanGenre(g)
    ensures MergedText(c, g)
         == if AllSpace(c) then Annotation(g) else TrimStart(c) + " " + Annotation(g)
    ensures EndsWith(MergedText(c, g), Annotation(g))
  {
    var ann := Annotation(g);
    var head := if AllSpace(c) then [] else TrimStart(c) + " ";
    var m := head + ann;
    assert MergedText(c, g) == m by {
      MergedTrimsFrontOnly(c, g);
      MergedFront(c, g);
    }
    assert m[|m| - |ann|..] == ann;
  }

  /** `MergedTextShape` in a form a function body can use unconditionally. */
  lemma MergedShapeIfClean(c: string, g: string)
    ensures CleanGenre(g) ==>
      MergedText(c, g) == if AllSpace(c) then Annotation(g) else TrimStart(c) + " " + Annotation(g)
  {
    if CleanGenre(g) {
      MergedTextShape(c, g);
    }
  }

  /** The merged text ends with the annotation, so it contains it. */
  lemma MergedKeepsAnnotation(c: string, g: string)
    ensures CleanGenre(g) ==> Contains(MergedText(c, g), Annotation(g))
  {
    if CleanGenre(g) {
      MergedTextShape(c, g);
      var m := MergedText(c, g);
      var ann := Annotation(g);
      assert m[..|m| - |ann|] + ann == m;
      ContainsSuffix(m[..|m| - |ann|], ann);
    }
  }

  /** With no prior comment the merged text is exactly the annotation. */
  lemma MergeIntoEmpty(g: string)
    requires CleanGenre(g)
    ensures MergeGenreIntoComment("", g) == Annotation(g)
  {
    MergedTextShape("", g);
  }

  /** Merging twice with the same clean genre is merging once. */
  lemma MergeIdempotent(c: string, g: string)
    requires CleanGenre(g)
    ensures MergeGenreIntoComment(MergeGenreIntoComment(c, g), g)
         == MergeGenreIntoComment(c, g)
  {
  }

  /** Dropping one trailing space: what `strip()` does to an annotation whose
      genre ends in a space. */
  lemma TrimEndOneSpace(s: string)
    requires s != [] && !IsSpace(s[|s| - 1])
    ensures TrimEnd(s + " ") == s
  {
    assert (s + " ")[..|s|] == s;
  }

  /** A genre that ends in one trailing space breaks idempotence: `strip()`
      removes that space from the annotation, so the second merge does not
      find the annotation (with its space) and appends it again. From then on
      it is found at the front of the text (the first copy followed by the
      joining space), and a third merge changes nothing. With `h == "Rock"`:
      `""` becomes `"Genre: Rock"`, which becomes `"Genre: Rock Genre: Rock"`,
      which stays. Other trailing whitespace (a tab, two spaces) is not
      covered here: the copies are joined by a single space, so such an
      annotation is not found there either (`TabGenreAppendsAgain`). */
  lemma TrailingSpaceNotIdempotent(h: string)
    requires CleanGenre(h)
    ensures MergeGenreIntoComment("", h + " ") == Annotation(h)
    ensures MergeGenreIntoComment(Annotation(h), h + " ")
         == Annotation(h) + " " + Annotation(h)
    ensures MergeGenreIntoComment(Annotation(h) + " " + Annotation(h), h + " ")
         == Annotation(h) + " " + Annotation(h)
  {
    var g := h + " ";
    var ann := Annotation(h);
    LongerNeedle("", Annotation(g));
    assert MergeGenreIntoComment("", g) == MergedText("", g);
    TrailingSpaceFirstMerge(h);
    LongerNeedle(ann, Annotation(g));
    assert MergeGenreIntoComment(ann, g) == MergedText(ann, g);
    TrailingSpaceSecondMerge(h);
    TrailingSpaceThirdMerge(h);
  }

  /** First merge with a one-space genre: the trailing space is stripped. */
  lemma TrailingSpaceFirstMerge(h: string)
    requires CleanGenre(h)
    ensures MergedText("", h + " ") == Annotation(h)
  {
    var g := h + " ";
    var ann := Annotation(h);
    var whole := "" + " " + Annotation(g);
    assert TrimStart(whole) == ann + " " by {
      assert Annotation(g) == ann + " ";
      AnnotationFront(h);
      MergedFront("", g);
    }
    assert MergedText("", g) == TrimEnd(TrimStart(whole));
    TrimEndOneSpace(ann);
  }

  /** Second merge with a one-space genre: a second copy is appended, again
      without its trailing space. */
  lemma TrailingSpaceSecondMerge(h: string)
    requires CleanGenre(h)
    ensures MergedText(Annotation(h), h + " ")
         == Annotation(h) + " " + Annotation(h)
  {
    var g := h + " ";
    var ann := Annotation(h);
    var twice := ann + " " + ann;
    var whole := ann + " " + Annotation(g);
    assert TrimStart(whole) == twice + " " by {
      assert Annotation(g) == ann + " ";
      assert whole == ann + (" " + Annotation(g));
      assert twice + " " == ann + (" " + Annotation(g));
      AnnotationFront(h);
      TrimStartAppend(ann, " " + Annotation(g));
      assert !AllSpace(ann);
      assert TrimStart(ann) == ann;
    }
    assert MergedText(ann, g) == TrimEnd(TrimStart(whole));
    TrimEndOneSpace(twice);
  }

  /** After the second merge the annotation with its trailing space occurs at
      the front of the text, so the third merge returns the text unchanged. */
  lemma TrailingSpaceThirdMerge(h: string)
    requires CleanGenre(h)
    ensures MergeGenreIntoComment(Annotation(h) + " " + Annotation(h), h + " ")
         == Annotation(h) + " " + Annotation(h)
  {
    var ann := Annotation(h);
    var twice := ann + " " + ann;
    var needle := Annotation(h + " ");
    assert needle == ann + " ";
    assert twice[0..|needle|] == needle;
    ContainsAt(twice, needle, 0);
  }

  /** A genre that ends in a tab never settles: the copies are joined by a
      single space, so the annotation with its tab never occurs, and every
      merge into a tab-free comment appends another copy and stays tab-free. */
  lemma TabGenreAppendsAgain(c: string, h: string)
    requires CleanGenre(h) && '\t' !in h
    requires '\t' !in c && !AllSpace(c)
    ensures MergeGenreIntoComment(c, h + "\t")
         == TrimStart(c) + " " + Annotation(h)
    ensures '\t' !in MergeGenreIntoComment(c, h + "\t")
    ensures !AllSpace(MergeGenreIntoComment(c, h + "\t"))
  {
    var ann := Annotation(h);
    var r := TrimStart(c) + " " + ann;
    assert MergeGenreIntoComment(c, h + "\t") == r by {
      TabGenreMerge(c, h);
    }
    NoTabAfterMerge(c, h);
    assert !IsSpace(r[|r| - 1]) by {
      assert r[|r| - 1] == h[|h| - 1];
    }
  }

  /** The text a tab genre merges to holds no tab when the comment holds none. */
  lemma NoTabAfterMerge(c: string, h: string)
    requires '\t' !in c && '\t' !in h
    ensures '\t' !in TrimStart(c) + " " + Annotation(h)
  {
    NoTabInSuffix(c, TrimStart(c));
    NoTabInAnnotation(h);
  }

  /** A suffix of a tab-free text is tab-free. */
  lemma NoTabInSuffix(c: string, t: string)
    requires '\t' !in c && |t| <= |c| && t == c[|c| - |t|..]
    ensures '\t' !in t
  {
    forall k | 0 <= k < |t| ensures t[k] != '\t' {
      assert t[k] == c[|c| - |t| + k];
    }
  }

  /** The annotation of a tab-free genre is tab-free. */
  lemma NoTabInAnnotation(h: string)
    requires '\t' !in h
    ensures '\t' !in Annotation(h)
  {
    var ann := Annotation(h);
    forall k | 0 <= k < |ann| ensures ann[k] != '\t' {
      if k >= 7 { assert ann[k] == h[k - 7]; }
    }
  }

  /** The value half of `TabGenreAppendsAgain`. */
  lemma TabGenreMerge(c: string, h: string)
    requires CleanGenre(h) && '\t' !in c
    ensures MergeGenreIntoComment(c, h + "\t")
         == (if AllSpace(c) then "" else TrimStart(c) + " ") + Annotation(h)
  {
    var ann := Annotation(h);
    var g := h + "\t";
    assert Annotation(g) == ann + "\t";
    MissingCharNotContained(c, Annotation(g), '\t');
    assert TrimEnd(ann + "\t") == ann by {
      assert (ann + "\t")[..|ann|] == ann;
      assert ann[|ann| - 1] == h[|h| - 1];
      TrimEndClean(ann);
    }
  }
}

=== FILE: pystrings.dfy ===
/** Python values the tagger relies on: `None`-or-a-value and truthiness. */
module PyValues {

  /** A Python value that may be `None`. */
  datatype Option<+T> = None | Some(value: T) {

    /** `default if x is None else x` */
    function GetOr(default: T): T {
      if Some? then value else default
    }
  }

  /** Python truthiness of an optional string: both `None` and `""` are falsy. */
  predicate Truthy(s: Option<string>) {
    s.Some? && |s.value| > 0
  }
}

/** The few `str` operations the tagger uses: `isspace`, `strip()`, the
    substring test `needle in hay`, and `startswith`/`endswith`. */
module PyStrings {

  /** `c.isspace()`: the ASCII whitespace controls, the information separators
      0x1C-0x1F, and the Unicode space and line/paragraph separators. */
  predicate IsSpace(c: char) {
    var n := c as int;
    || 9 <= n <= 13
    || 0x1C <= n <= 0x20
    || n == 0x85 || n == 0xA0 || n == 0x1680
    || 0x2000 <= n <= 0x200A
    || n == 0x2028 || n == 0x2029 || n == 0x202F || n == 0x205F || n == 0x3000
  }

  predicate AllSpace(s: string) {
    forall i :: 0 <= i < |s| ==> IsSpace(s[i])
  }

  predicate StartsWith(s: string, prefix: string) {
    |prefix| <= |s| && s[..|prefix|] == prefix
  }

  /** `s.endswith(suffix)`, case-sensitive. */
  predicate EndsWith(s: string, suffix: string) {
    |suffix| <= |s| && s[|s| - |suffix|..] == suffix
  }

  /** Leading half of `strip()`: drops the whitespace prefix and nothing else. */
  function TrimStart(s: string): (r: string)
    ensures |r| <= |s| && r == s[|s| - |r|..]
    ensures forall i :: 0 <= i < |s| - |r| ==> IsSpace(s[i])
    ensures r == [] || !IsSpace(r[0])
    decreases |s|
  {
    if |s| > 0 && IsSpace(s[0]) then TrimStart(s[1..]) else s
  }

  /** Trailing half of `strip()`: drops the whitespace suffix and nothing else. */
  function TrimEnd(s: string): (r: string)
    ensures |r| <= |s| && r == s[..|r|]
    ensures forall i :: |r| <= i < |s| ==> IsSpace(s[i])
    ensures r == [] || !IsSpace(r[|r| - 1])
    decreases |s|
  {
    if |s| > 0 && IsSpace(s[|s| - 1]) then TrimEnd(s[..|s| - 1]) else s
  }

  /** `s.strip()` with no argument: the input with its leading and trailing
      whitespace removed (`StripIsSlice` says that nothing else is removed). */
  function Strip(s: string): (r: string)
    ensures |r| <= |s|
    ensures r == [] <==> AllSpace(s)
    ensures r != [] ==> !IsSpace(r[0]) && !IsSpace(r[|r| - 1])
  {
    var t := TrimStart(s);
    if t == [] then
      assert AllSpace(s);
      TrimEnd(t)
    else
      assert !IsSpace(s[|s| - |t|]);
      TrimEnd(t)
  }

  /** `r` is the slice of `s` starting at `i`, and everything of `s` before
      and after that slice is whitespace. */
  predicate TrimmedAt(s: string, r: string, i: int) {
    && 0 <= i <= |s| - |r|
    && r == s[i..i + |r|]
    && AllSpace(s[..i]) && AllSpace(s[i + |r|..])
  }

  /** `strip()` removes whitespace from the two ends and nothing else: its
      result is a contiguous slice of the input with only whitespace before
      and after it. */
  lemma StripIsSlice(s: string)
    ensures exists i :: TrimmedAt(s, Strip(s), i)
  {
    var t := TrimStart(s);
    var r := TrimEnd(t);
    assert Strip(s) == r;
    SliceBetweenSpace(s, t, r);
  }

  /** A string cut from the middle of `s`, with only whitespace cut off on
      either side, is a slice of `s` between two runs of whitespace. */
  lemma SliceBetweenSpace(s: string, t: string, r: string)
    requires |t| <= |s| && t == s[|s| - |t|..]
    requires forall k :: 0 <= k < |s| - |t| ==> IsSpace(s[k])
    requires |r| <= |t| && r == t[..|r|]
    requires forall k :: |r| <= k < |t| ==> IsSpace(t[k])
    ensures TrimmedAt(s, r, |s| - |t|)
  {
    var i := |s| - |t|;
    var front := s[..i];
    forall k | 0 <= k < |front| ensures IsSpace(front[k]) {
      assert front[k] == s[k];
    }
    var back := s[i + |r|..];
    forall k | 0 <= k < |back| ensures IsSpace(back[k]) {
      assert back[k] == t[|r| + k];
    }
  }

  /** `needle in hay` for two strings (the empty string occurs everywhere). */
  predicate Contains(hay: string, needle: string)
    decreases |hay|
  {
    StartsWith(hay, needle) || (|hay| > 0 && Contains(hay[1..], needle))
  }

  /** The reference meaning of `needle in hay`: an occurrence at index `i`. */
  ghost predicate OccursAt(hay: string, needle: string, i: int) {
    0 <= i && i + |needle| <= |hay| && hay[i..i + |needle|] == needle
  }

  /** `Contains` holds exactly when the needle occurs at some index. */
  lemma {:induction false} ContainsIff(hay: string, needle: string)
    ensures Contains(hay, needle) <==> exists i :: OccursAt(hay, needle, i)
    decreases |hay|
  {
    if Contains(hay, needle) {
      if StartsWith(hay, needle) {
        assert OccursAt(hay, needle, 0);
      } else {
        ContainsIff(hay[1..], needle);
        var j :| OccursAt(hay[1..], needle, j);
        assert hay[1..][j..j + |needle|] == hay[j + 1..j + 1 + |needle|];
        assert OccursAt(hay, needle, j + 1);
      }
    }
    if exists i :: OccursAt(hay, needle, i) {
      var i :| OccursAt(hay, needle, i);
      if i > 0 {
        assert hay[1..][i - 1..i - 1 + |needle|] == hay[i..i + |needle|];
        assert OccursAt(hay[1..], needle, i - 1);
        ContainsIff(hay[1..], needle);
      } else {
        assert StartsWith(hay, needle);
      }
    }
  }

  /** An occurrence at a known index is enough for `needle in hay`. */
  lemma ContainsAt(hay: string, needle: string, i: int)
    requires OccursAt(hay, needle, i)
    ensures Contains(hay, needle)
  {
    ContainsIff(hay, needle);
  }

  /** A string occurs in anything that ends with it. */
  lemma ContainsSuffix(prefix: string, s: string)
    ensures Contains(prefix + s, s)
  {
    assert (prefix + s)[|prefix|..|prefix| + |s|] == s;
    ContainsAt(prefix + s, s, |prefix|);
  }

  /** `in` is transitive: an occurrence inside an occurrence is an occurrence. */
  lemma ContainsTransitive(a: string, b: string, c: string)
    requires Contains(a, b) && Contains(b, c)
    ensures Contains(a, c)
  {
    ContainsIff(a, b);
    ContainsIff(b, c);
    var i :| OccursAt(a, b, i);
    var j :| OccursAt(b, c, j);
    assert c == b[j..j + |c|] == a[i..i + |b|][j..j + |c|];
    var inner := a[i..i + |b|][j..j + |c|];
    var direct := a[i + j..i + j + |c|];
    forall k | 0 <= k < |c| ensures inner[k] == direct[k] {
      assert inner[k] == a[i + j + k];
    }
    assert inner == direct;
    ContainsAt(a, c, i + j);
  }

  /** A non-empty needle does not occur in the empty string. */
  lemma NotInEmpty(needle: string)
    requires needle != []
    ensures !Contains([], needle)
  {
  }

  /** A needle longer than the haystack cannot occur in it. */
  lemma {:induction false} LongerNeedle(hay: string, needle: string)
    requires |needle| > |hay|
    ensures !Contains(hay, needle)
    decreases |hay|
  {
    if |hay| > 0 {
      LongerNeedle(hay[1..], needle);
    }
  }

  /** A string that starts with whitespace is all whitespace exactly when its
      tail is. */
  lemma AllSpaceTail(a: string)
    requires a != [] && IsSpace(a[0])
    ensures AllSpace(a) <==> AllSpace(a[1..])
  {
    if AllSpace(a[1..]) {
      forall i | 0 <= i < |a| ensures IsSpace(a[i]) {
        if i > 0 { assert a[i] == a[1..][i - 1]; }
      }
    }
  }

  /** Stripping the front of a concatenation: the whitespace prefix of `a` goes,
      and when `a` is all whitespace the front of `b` is stripped as well. */
  lemma {:induction false} TrimStartAppend(a: string, b: string)
    ensures TrimStart(a + b) == if AllSpace(a) then TrimStart(b) else TrimStart(a) + b
    decreases |a|
  {
    if a == [] {
      assert a + b == b;
    } else if IsSpace(a[0]) {
      var ab := a + b;
      assert ab[0] == a[0] && IsSpace(ab[0]);
      assert ab[1..] == a[1..] + b;
      assert TrimStart(ab) == TrimStart(ab[1..]);
      TrimStartAppend(a[1..], b);
      AllSpaceTail(a);
      assert TrimStart(a) == TrimStart(a[1..]);
    } else {
      assert (a + b)[0] == a[0];
    }
  }

  /** Stripping the back of a concatenation whose second part starts with a
      non-space character only ever touches that second part. */
  lemma {:induction false} TrimEndAppend(a: string, b: string)
    requires b != [] && !IsSpace(b[0])
    ensures TrimEnd(a + b) == a + TrimEnd(b)
    decreases |b|
  {
    var ab := a + b;
    assert ab[|ab| - 1] == b[|b| - 1];
    if IsSpace(b[|b| - 1]) {
      var shorter := b[..|b| - 1];
      assert ab[..|ab| - 1] == a + shorter;
      assert TrimEnd(ab) == TrimEnd(a + shorter);
      assert TrimEnd(b) == TrimEnd(shorter);
      TrimEndAppend(a, shorter);
    }
  }

  /** A character that the haystack lacks rules out every needle holding it. */
  lemma MissingCharNotContained(hay: string, needle: string, x: char)
    requires x in needle && x !in hay
    ensures !Contains(hay, needle)
  {
    var j :| 0 <= j < |needle| && needle[j] == x;
    forall i ensures !OccursAt(hay, needle, i) {
      if 0 <= i && i + |needle| <= |hay| {
        assert hay[i..i + |needle|][j] == hay[i + j] != x;
      }
    }
    ContainsIff(hay, needle);
  }

  /** A string whose last character is not whitespace has nothing to trim
      at the back. */
  lemma TrimEndClean(s: string)
    requires s != [] && !IsSpace(s[|s| - 1])
    ensures TrimEnd(s) == s
  {
  }

  /** When the last character is not whitespace, `strip()` only trims the
      front. */
  lemma StripCleanEnd(s: string)
    requires s != [] && !IsSpace(s[|s| - 1])
    ensures Strip(s) == TrimStart(s)
  {
    var t := TrimStart(s);
    assert |t| > 0;
    assert t[|t| - 1] == s[|s| - 1];
    TrimEndClean(t);
  }
}

=== FILE: tagger.dfy ===
/** `extract_metadata` and `process_file`: the per-file decision of whether a
    genre annotation goes into the comment, and which text is written. */
module Tagger {
  import opened PyValues
  import opened PyStrings
  import opened CommentMerge
  import opened CommentFrames

  /** The four tag values `extract_metadata` reads (artist, title, English
      comment, genre), each possibly `None`. */
  datatype RawTags = RawTags(artist: Option<string>, title: Option<string>,
                             comments: Option<string>, genre: Option<string>)

  /** `(None, None, None, None)` */
  const NoTags := RawTags(None, None, None, None)

  /** The genre value the resolver returns when it finds nothing. */
  const Unknown := "Unknown"

  /** `if artist and title` */
  predicate HasArtistAndTitle(t: RawTags) {
    Truthy(t.artist) && Truthy(t.title)
  }

  /** `extract_metadata(file_path)`: `file` is `None` when the file cannot be
      loaded as tagged audio (the loader returns `None` or raises). The four
      values come back only when artist and title are both truthy. */
  function ExtractMetadata(file: Option<RawTags>): (m: RawTags)
    ensures HasArtistAndTitle(m) <==> file.Some? && HasArtistAndTitle(file.value)
    ensures HasArtistAndTitle(m) ==> m == file.value
    ensures !HasArtistAndTitle(m) ==> m == NoTags
  {
    if file.Some? && HasArtistAndTitle(file.value) then file.value else NoTags
  }

  /** Everything `process_file` can end in. Only `Commented(Saved(_))`
      changes the file; nothing ever writes the genre tag. */
  datatype FileOutcome =
    | MissingArtistOrTitle          // warning, file skipped
    | GenreUndetermined             // warning: no usable genre
    | AlreadyAnnotated              // process_file's own substring check hit
    | Commented(update: CommentUpdate)  // updateComments was called
    | TypeErrorRaised               // `in None`: escapes process_file

  predicate Writes(o: FileOutcome) {
    o.Commented? && o.update.Saved?
  }

  /** The genre `process_file` annotates, defined independently of its branch
      structure: an existing truthy genre tag; when the tag is `None`, the
      resolver's answer unless it is empty or `'Unknown'`; nothing otherwise
      (in particular a present but empty genre tag is never replaced). */
  function ChosenGenre(m: RawTags, resolve: (string, string) -> string): (r: Option<string>)
    requires HasArtistAndTitle(m)
    ensures r.Some? ==> Truthy(r)
    ensures m.genre.Some? ==> (r.Some? <==> Truthy(m.genre)) && (r.Some? ==> r == m.genre)
    ensures m.genre.None? && r.Some? ==>
      r.value == resolve(m.artist.value, m.title.value) && r.value != Unknown
  {
    match m.genre
    case Some(g) => if g != "" then Some(g) else None
    case None =>
      var answer := resolve(m.artist.value, m.title.value);
      if answer != "" && answer != Unknown then Some(answer) else None
  }

  /** `process_file(sp, file_path)`. `file` is what the tag reader sees,
      `resolve` stands for `get_genre(sp, artist, title)`, and `load` is the ID3
      tag `updateComments` opens. */
  function ProcessFile(file: Option<RawTags>, resolve: (string, string) -> string, load: TagLoad)
    : (r: FileOutcome)
    ensures !(file.Some? && HasArtistAndTitle(file.value)) ==> r == MissingArtistOrTitle
    ensures file.Some? && HasArtistAndTitle(file.value) ==>
      (ChosenGenre(file.value, resolve).None? <==> r == GenreUndetermined)
    ensures Writes(r) ==>
      file.Some? && HasArtistAndTitle(file.value) && ChosenGenre(file.value, resolve).Some?
    ensures r == TypeErrorRaised <==>
      file.Some? && HasArtistAndTitle(file.value) && Truthy(file.value.genre)
      && file.value.comments.None?
  {
    var m := ExtractMetadata(file);
    if HasArtistAndTitle(m) then
      var newGenre := if m.genre.None? then Some(resolve(m.artist.value, m.title.value)) else None;
      if Truthy(newGenre) && newGenre.value != Unknown then
        var comments := m.comments.GetOr("");
        if !Contains(comments, Annotation(newGenre.value)) then
          Commented(UpdateComments(load, MergedText(comments, newGenre.value)))
        else
          AlreadyAnnotated
      else if Truthy(m.genre) then
        if m.comments.None? then
          TypeErrorRaised
        else if !Contains(m.comments.value, Annotation(m.genre.value)) then
          Commented(UpdateComments(load, MergedText(m.comments.value, m.genre.value)))
        else
          AlreadyAnnotated
      else
        GenreUndetermined
    else
      MissingArtistOrTitle
  }

  /** The resolver is consulted only when the genre tag is `None`: with a genre
      tag present, any two resolvers give the same outcome. */
  lemma ResolverUnusedWithGenreTag(t: RawTags, resolve1: (string, string) -> string,
                                   resolve2: (string, string) -> string, load: TagLoad)
    requires t.genre.Some?
    ensures ProcessFile(Some(t), resolve1, load) == ProcessFile(Some(t), resolve2, load)
  {
  }

  /** When consulted, the resolver is asked about this file's artist and title
      and nothing else. */
  lemma ResolverAskedAboutArtistAndTitle(t: RawTags, resolve1: (string, string) -> string,
                                         resolve2: (string, string) -> string, load: TagLoad)
    requires HasArtistAndTitle(t)
    requires resolve1(t.artist.value, t.title.value) == resolve2(t.artist.value, t.title.value)
    ensures ProcessFile(Some(t), resolve1, load) == ProcessFile(Some(t), resolve2, load)
  {
  }

  /** An `'Unknown'` answer with no genre tag writes nothing. */
  lemma UnknownWritesNothing(t: RawTags, resolve: (string, string) -> string, load: TagLoad)
    requires HasArtistAndTitle(t) && t.genre.None?
    requires resolve(t.artist.value, t.title.value) == Unknown
    ensures ProcessFile(Some(t), resolve, load) == GenreUndetermined
  {
  }

  /** The comment text `process_file` starts from: a missing comment counts as
      `""` in the resolved branch; in the existing-genre branch it is used as is. */
  function BaseComment(t: RawTags): (r: Option<string>)
    ensures t.genre.None? ==> r.Some?
    ensures t.comments.Some? ==> r == t.comments
    ensures t.comments.None? && r.Some? ==> r.value == ""
  {
    if t.genre.None? then Some(t.comments.GetOr("")) else t.comments
  }

  /** The full decision, stated over `ChosenGenre`: no genre, no write; the
      annotation already in the comment, no write; otherwise `updateComments`
      receives the merged text, never the bare genre. */
  lemma ProcessFileDecision(t: RawTags, resolve: (string, string) -> string, load: TagLoad)
    requires HasArtistAndTitle(t) && ChosenGenre(t, resolve).Some?
    requires BaseComment(t).Some?
    ensures var g := ChosenGenre(t, resolve).value;
            var c := BaseComment(t).value;
            ProcessFile(Some(t), resolve, load)
              == if Contains(c, Annotation(g)) then AlreadyAnnotated
                 else Commented(UpdateComments(load, MergedText(c, g)))
  {
  }

  /** The duplicate check of `process_file`: if `"Genre: <g>"` is already a
      substring of the comment, nothing is written. */
  lemma AnnotatedCommentWritesNothing(t: RawTags, resolve: (string, string) -> string,
                                      load: TagLoad)
    requires HasArtistAndTitle(t) && ChosenGenre(t, resolve).Some?
    requires BaseComment(t).Some?
    requires Contains(BaseComment(t).value, Annotation(ChosenGenre(t, resolve).value))
    ensures !Writes(ProcessFile(Some(t), resolve, load))
  {
    ProcessFileDecision(t, resolve, load);
  }

  /** A file whose tag has neither an English comment frame nor any comment
      value, with a clean resolved genre `g`, gets the comment
      `" Genre: Genre: <g>"`: the merged text `"Genre: <g>"` passes through
      `updateComments`, which prefixes `" Genre: "` again. */
  lemma FreshFileText(t: RawTags, resolve: (string, string) -> string, frames: seq<CommentFrame>)
    requires HasArtistAndTitle(t) && t.genre.None? && t.comments.None?
    requires resolve(t.artist.value, t.title.value) != Unknown
    requires CleanGenre(resolve(t.artist.value, t.title.value))
    requires forall j :: 0 <= j < |frames| ==> frames[j].lang != English
    ensures ProcessFile(Some(t), resolve, Loaded(frames))
         == Commented(Saved(" Genre: Genre: " + resolve(t.artist.value, t.title.value)))
  {
    var g := resolve(t.artist.value, t.title.value);
    var load := Loaded(frames);
    assert UpdateComments(load, Annotation(g)) == Saved(" Genre: Genre: " + g) by {
      assert GenreComment(Annotation(g)) == " Genre: Genre: " + g;
    }
    FreshFileMerges(t, resolve, load);
  }

  /** The first half of `FreshFileText`: with no comment, `updateComments`
      receives the bare annotation. */
  lemma FreshFileMerges(t: RawTags, resolve: (string, string) -> string, load: TagLoad)
    requires HasArtistAndTitle(t) && t.genre.None? && t.comments.None?
    requires resolve(t.artist.value, t.title.value) != Unknown
    requires CleanGenre(resolve(t.artist.value, t.title.value))
    ensures ProcessFile(Some(t), resolve, load)
         == Commented(UpdateComments(load, Annotation(resolve(t.artist.value, t.title.value))))
  {
    var g := resolve(t.artist.value, t.title.value);
    assert ChosenGenre(t, resolve) == Some(g);
    assert BaseComment(t) == Some("");
    ProcessFileDecision(t, resolve, load);
    NotInEmpty(Annotation(g));
    MergedTextShape("", g);
  }

  /** The end-to-end case: artist and title present, no genre tag, no comment,
      a resolver stub that answers `"Jazz"` for this track. */
  lemma JazzExample(t: RawTags, resolve: (string, string) -> string, frames: seq<CommentFrame>)
    requires t == RawTags(Some("Artist A"), Some("Song B"), None, None)
    requires resolve("Artist A", "Song B") == "Jazz"
    requires forall j :: 0 <= j < |frames| ==> frames[j].lang != English
    ensures ProcessFile(Some(t), resolve, Loaded(frames)) == Commented(Saved(" Genre: Genre: Jazz"))
  {
    JazzFacts(t, resolve);
    FreshFileText(t, resolve, frames);
  }

  /** The string facts about the example that `JazzExample` needs: `"Jazz"`
      is clean and is not `"Unknown"`. */
  lemma JazzFacts(t: RawTags, resolve: (string, string) -> string)
    requires t == RawTags(Some("Artist A"), Some("Song B"), None, None)
    requires resolve("Artist A", "Song B") == "Jazz"
    ensures HasArtistAndTitle(t) && t.genre.None? && t.comments.None?
    ensures resolve(t.artist.value, t.title.value) == "Jazz"
    ensures resolve(t.artist.value, t.title.value) != Unknown
    ensures CleanGenre(resolve(t.artist.value, t.title.value))
    ensures " Genre: Genre: " + resolve(t.artist.value, t.title.value) == " Genre: Genre: Jazz"
  {
    var g := resolve(t.artist.value, t.title.value);
    assert g[|g| - 1] == 'z';
    assert g[0] != Unknown[0];
  }

  /** Whatever `process_file` writes for a clean genre `g` contains
      `"Genre: <g>"`: the merged text ends with it, and `updateComments` only
      ever appends after the current comment. */
  lemma WrittenTextHasAnnotation(t: RawTags, resolve: (string, string) -> string, load: TagLoad)
    requires HasArtistAndTitle(t)
    requires Writes(ProcessFile(Some(t), resolve, load))
    requires CleanGenre(ChosenGenre(t, resolve).value)
    ensures Contains(ProcessFile(Some(t), resolve, load).update.text,
                     Annotation(ChosenGenre(t, resolve).value))
  {
    var g := ChosenGenre(t, resolve).value;
    var c := BaseComment(t).value;
    var merged := MergedText(c, g);
    var written := ProcessFile(Some(t), resolve, load).update.text;
    assert Contains(written, GenreComment(merged)) by {
      ProcessFileDecision(t, resolve, load);
    }
    assert Contains(merged, Annotation(g)) by {
      MergedKeepsAnnotation(c, g);
    }
    ContainsSuffix(" Genre: ", merged);
    ContainsTransitive(written, GenreComment(merged), merged);
    ContainsTransitive(written, merged, Annotation(g));
  }

  /** Running `process_file` again on its own output writes nothing, provided
      the tag reader then sees the written text as the comment and the genre
      is clean: the written text contains `"Genre: <g>"`. */
  lemma SecondRunWritesNothing(t: RawTags, resolve: (string, string) -> string,
                               load: TagLoad, load2: TagLoad)
    requires HasArtistAndTitle(t)
    requires Writes(ProcessFile(Some(t), resolve, load))
    requires CleanGenre(ChosenGenre(t, resolve).value)
    ensures ProcessFile(Some(t.(comments := Some(ProcessFile(Some(t), resolve, load).update.text))),
                        resolve, load2)
         == AlreadyAnnotated
  {
    var g := ChosenGenre(t, resolve).value;
    var written := ProcessFile(Some(t), resolve, load).update.text;
    WrittenTextHasAnnotation(t, resolve, load);
    var t2 := t.(comments := Some(written));
    assert ChosenGenre(t2, resolve) == Some(g);
    assert BaseComment(t2) == Some(written);
    ProcessFileDecision(t2, resolve, load2);
  }
}
